=== FILE: README.md ===
# rollup-watch rebuild orchestrator, in Dafny

This project models the core of `rollup-watch` 2.5.0. The core is the `watch(rollup, options)` function that keeps a Rollup build up to date. The model covers:

- **the scheduling state machine**: the `building` and `rebuildScheduled` flags, the 50 ms debounce timer started by `triggerRebuild`, and `build()` with its cache hand-off and its chaining of builds on completion;
- **the `filewatchers` map**: it is reconciled against the module list of every successful bundle;
- **`FileWatcher`**: a per-file watcher that handles `rename` and suppresses duplicate change events by comparing content;
- **the two helpers** `sequence` (a strictly ordered promise chain) and `assign` (an own-key merge);
- **the lifecycle events** emitted to the caller: `STARTING`, `BUILD_START`, `BUILD_SELF`, `BUILD_END` and `ERROR`.

Time is abstract. The timer is a pending flag that fires on an explicit input. Each asynchronous collaborator settles through an input of its own:

- the version check;
- the bundler (success with a bundle, or failure);
- the output writes;
- the self-build consumer's `done`;
- filesystem notifications (`rename`, or any other kind together with the content a re-read returns).

`Orchestrator.Step` applies one input to an immutable `State`, and `Orchestrator.Run` applies a sequence of inputs. Node cannot deliver an input the current state does not expect (a timer that is not pending, a settlement nobody awaits, an event for an unwatched file), so `Step` ignores such inputs.

Files:

- `wrappers.dfy`: `Option` and `Result`.
- `objects.dfy`: JavaScript objects with own and inherited properties, plus `assign`, `Object.assign` and `delete`.
- `promise_chain.dfy`: `sequence`.
- `file_watcher.dfy`: `FileWatcher`.
- `registry.dfy`: the watcher map and its reconciliation.
- `lifecycle.dfy`: the events and the pattern every trace follows.
- `orchestrator.dfy`: the state machine, its invariant, and the properties of every run.
- `scenarios.dfy`: concrete runs, including the repository's own two-target configuration.

## Behaviour as written

The model follows the code. Where the code does something a reader of its names and comments might not expect, the model states what the code does:

- **Builds chain forever once a change lands mid-build.** The completion handler starts a chained build without clearing `rebuildScheduled` (dist/rollup-watch.es6.js:184-187). The only statement that clears the flag is a timer firing while no build is in flight (line 114). After a chained build starts, no build is ever out of flight again. So once a `rename`, or a change with new content, arrives during a build, every later state has a build in flight with the flag set (`Orchestrator.RebuildsNeverStop`). "Exactly one more build after the current one" does not hold.
- **`initial` is always true.** `watching` is never assigned after line 103, so `BUILD_END.initial` is always true (`Orchestrator.BuildEndAlwaysInitial`).
- **A failed build keeps the last good cache.** A failed bundler call leaves `cache` at the last successful bundle; it is not reset to "no cache".
- **A write failure does not undo the cache.** The cache is replaced before any write, so a failing write keeps the new cache.
- **A fatal watch error becomes an `ERROR` event.** An `fs.watch` error other than ENOENT is thrown inside the bundle's `.then` callback. It therefore becomes a rejection that the `ERROR` handler catches. The build then completes normally: the error does not escape `watch` (`Orchestrator.AfterBundler`). Watchers created earlier in the same module walk stay in the map (`Registry.ReconcileWatchesFilesBeforeFatal`).
- **Ids that drop out of the graph stay watched.** Watchers whose id no longer appears in a bundle's module list are kept.

## Model

| member | source | states |
|---|---|---|
| Objects.Assign | dist/rollup-watch.es6.js:23-34 | `assign(target, ...sources)` copies the sources' own keys onto the target, left to right, and keeps the target's prototype chain. What the result owns is stated by `Objects.AssignIsLastWriterWins`. |
| Objects.AssignIsLastWriterWins | dist/rollup-watch.es6.js:23-34 | The left-to-right copy loop of `assign` gives each key the value of the last source owning it, else the target's own value; the key is present exactly when such a value exists. |
| Objects.AssignCopiesOwnKeysOnly | dist/rollup-watch.es6.js:27-31 | The merged object owns a key exactly when the target or some source owns it; inherited properties of a source are never copied. |
| Objects.AssignLaterOverrides | dist/rollup-watch.es6.js:27-31 | A source's value for a key survives in the result when no later source owns that key. |
| Objects.Merge | dist/rollup-watch.es6.js:165 | `Object.assign({}, base, over)` owns the union of both key sets, and `over` wins on shared keys. |
| Objects.Delete | dist/rollup-watch.es6.js:127 | `delete` removes only the own property; all other properties read as before. |
| PromiseChain.RunFrom | dist/rollup-watch.es6.js:10-18 | From link `i` on, the chain alternates call/settle in index order. It fulfils iff every remaining element's promise fulfils, keeping earlier results and storing each value at its index. On a rejection it stops at the first rejecting element. |
| PromiseChain.Sequence | dist/rollup-watch.es6.js:6-21 | `fn` is called strictly in index order, each call after the previous one settled. Success gives one result per element, by index. A rejection at `k` rejects the whole chain with that error, and `fn` is never called after `k`. |
| PromiseChain.SettledBeforeNextCall | dist/rollup-watch.es6.js:14-18 | Every log entry for an earlier element comes before the call on a later element. |
| FileWatcher.Create | dist/rollup-watch.es6.js:57-84 | A watcher is built unless `fs.watch` throws a code other than ENOENT, which propagates. `fileExists` is true iff no error was thrown. |
| FileWatcher.React | dist/rollup-watch.es6.js:59-72 | On `rename`: close, dispose, callback, in that order. On any other event, the callback fires once iff the re-read content differs from the snapshot, and the snapshot becomes that content. A closed watcher reacts to nothing. |
| FileWatcher.CallbacksCountTransitions | dist/rollup-watch.es6.js:64-71 | Over any run of change events, callbacks fire exactly once per content transition, and the snapshot ends as the last content read. |
| FileWatcher.DuplicateChangeIsIdempotent | dist/rollup-watch.es6.js:65-70 | Repeating a change event whose content was already seen produces no effect and leaves the watcher unchanged. |
| FileWatcher.NothingAfterRename | dist/rollup-watch.es6.js:60-63 | After `rename` closes the subscription, no later notification has any effect. |
| Registry.SyntheticNeverWatched | dist/rollup-watch.es6.js:141-142 | A plugin helper id (one containing a NUL character) that is not yet in the map is still not in it after any reconciliation, whatever the module list and the filesystem. |
| Registry.Reconcile | dist/rollup-watch.es6.js:138-151 | Every entry already in the map survives reconciliation unchanged, whether or not its id is still in the module list. |
| Registry.ReconcileAddsOnlyWatchableFiles | dist/rollup-watch.es6.js:141-149 | Each added entry is for a non-synthetic id of the module list whose file existed. It holds an open watcher on that file, with `fileExists` set and that module's source as snapshot. |
| Registry.ReconcileFatalIff | dist/rollup-watch.es6.js:144-149 | Reconciliation aborts iff some module is a real, not yet watched file whose watch attempt throws an error other than ENOENT. |
| Registry.ReconcileReportsFirstFatal | dist/rollup-watch.es6.js:138-151 | The error reported is the one from the first such module in list order. |
| Registry.ReconcileWatchesEveryRealFile | dist/rollup-watch.es6.js:138-151 | When reconciliation does not abort, every non-synthetic module whose file exists is in the map afterwards. |
| Registry.ReconcileWatchesFilesBeforeFatal | dist/rollup-watch.es6.js:138-151 | Whether or not reconciliation aborts, every non-synthetic module whose file exists and that comes before the first fatal module is in the map afterwards: an abort does not undo the watchers made before it. |
| Registry.Dispose | dist/rollup-watch.es6.js:145-147 | The dispose callback removes exactly the watcher's own id and leaves every other entry as it was. |
| Lifecycle.PatternCounts | dist/rollup-watch.es6.js:129-183 | In a trace that follows the event pattern, `STARTING` appears once, at the head. The number of `BUILD_START` equals the number of `BUILD_END`/`ERROR` plus one exactly while a build is open. |
| Orchestrator.Init | dist/rollup-watch.es6.js:86-106 | `watch()` starts with only `STARTING` emitted, no build in flight, no bundler call, an empty watcher map and no cache, and the invariant holds. |
| Orchestrator.Step | dist/rollup-watch.es6.js:59-187 | Dispatches one input: the version check settling, the debounce timer (108-118), a watcher notification (59-72), or the bundler or output settling (133-187). The base options never change, the version check is never undone, and the event trace, the call log and the bundler-outcome log only grow by appending. |
| Orchestrator.AfterBundler | dist/rollup-watch.es6.js:134-171 | Bundler failure keeps the cache and the map, emits `ERROR` with the bundler's error, and completes the build, a chained build starting iff the flag is set. Bundler success makes the bundle the cache and reconciles the map against its modules. If reconciliation hit an `fs.watch` error other than ENOENT, the next event is `ERROR` with that error and the build completes, a chained build starting iff the flag is set. Otherwise, without `buildSelf`, the build stays in flight awaiting the writes of this bundle, with no new event and no new call. The event trace and the call log only grow. |
| Orchestrator.ModeOf | dist/rollup-watch.es6.js:153-170 | A truthy `buildSelf` selects self-build. Otherwise a truthy `targets` selects the target chain over its list. Otherwise one default write. |
| Orchestrator.BuildOptions | dist/rollup-watch.es6.js:125-127 | The bundler's options drop `buildSelf` and carry every other own option unchanged. When a cache exists, `cache` is that bundle; otherwise `cache` is whatever the options own. |
| Orchestrator.Build | dist/rollup-watch.es6.js:120-133 | `build()` does nothing while a build is in flight. Otherwise it emits `BUILD_START`, marks the build in flight, records `initial = !watching`, and calls the bundler once with the cache-carrying options. |
| Orchestrator.TriggerRebuild | dist/rollup-watch.es6.js:108-118 | A notification always sets `rebuildScheduled` and leaves exactly one timer pending. It neither starts a build nor emits an event. |
| Orchestrator.Complete | dist/rollup-watch.es6.js:184-187 | Completion starts a new build iff `rebuildScheduled` is set, and it never changes the flag. |
| Orchestrator.Output | dist/rollup-watch.es6.js:163-170 | With targets, writes go one per target in list order, each with the target's keys over the options. They stop after the first failure and succeed iff every write does. Otherwise there is one write with the options as given. |
| Orchestrator.StepInv | dist/rollup-watch.es6.js:101-188 | Every input preserves the invariant: the flags agree with the event pattern, `watching` stays false, the cache is the last successful bundle, map entries are open watchers on real files, and an outstanding bundler call carries the current cache. |
| Orchestrator.Reachable | dist/rollup-watch.es6.js:86-191 | The invariant holds from `watch()`'s return through any sequence of inputs. |
| Orchestrator.AtMostOneBuildInFlight | dist/rollup-watch.es6.js:120-131 | In every run, `STARTING` comes first and only once. The started builds outnumber the finished ones by one exactly while `building` holds, and never by more. |
| Orchestrator.BuildEndAlwaysInitial | dist/rollup-watch.es6.js:101-124 | Every `BUILD_END` of every run reports `initial: true`. |
| Orchestrator.BundlerGetsLastGoodBundle | dist/rollup-watch.es6.js:123-136 | The cache is always the bundle of the most recent successful bundler call. An outstanding bundler call was made without `buildSelf` and with that bundle as `cache`. |
| Orchestrator.CacheAfterBundler | dist/rollup-watch.es6.js:133-136 | A successful bundler call makes its bundle the cache before any write. A failed one leaves the cache unchanged. |
| Orchestrator.WriteFailureKeepsCache | dist/rollup-watch.es6.js:134-183 | When the output phase settles, with or without a failed write, the cache remains the bundle just built. |
| Orchestrator.BurstWhileIdleBuildsOnce | dist/rollup-watch.es6.js:108-118 | Any number of `triggerRebuild` calls while idle, followed by the timer firing, clear the flag and start exactly one build with one bundler call. |
| Orchestrator.TimerDuringBuild | dist/rollup-watch.es6.js:112-117 | A timer firing while a build is in flight only consumes itself; `rebuildScheduled` stays set. |
| Orchestrator.ChainedStep | dist/rollup-watch.es6.js:184-187 | From a state with a build in flight and the flag set, every input leads to another such state. |
| Orchestrator.RebuildsNeverStop | dist/rollup-watch.es6.js:108-187 | Once a build is in flight with the flag set, whatever inputs follow, a build stays in flight with the flag set. |
| Orchestrator.NotifyDuringBuild | dist/rollup-watch.es6.js:108-111 | A content change during a build sets the flag and a timer while the build stays in flight. |
| Orchestrator.FsEventEffect | dist/rollup-watch.es6.js:59-72 | A watched file's `rename` removes its entry and triggers a rebuild. A change event with new content updates the snapshot and triggers a rebuild. A duplicate changes nothing. |
| Orchestrator.NothingBeforeVersionCheck | dist/rollup-watch.es6.js:86-98 | Until the version check settles, no input has any effect and `STARTING` is the only event. Its settlement starts the first build. |
| Orchestrator.SelfBuildWaitsForDone | dist/rollup-watch.es6.js:153-161 | With `buildSelf`, a successful bundle is announced in `BUILD_SELF`. The build stays in flight, waiting for `done`, and writes nothing. |
| Orchestrator.SelfDoneEnds | dist/rollup-watch.es6.js:154-186 | When the self-build consumer calls `done`, the next event is `BUILD_END` with `initial` true, the cache is kept, and the build completes, a chained build starting iff the flag is set. |
| Orchestrator.WritesDecideOutcome | dist/rollup-watch.es6.js:163-183 | When the output phase settles, the build's next event is `BUILD_END` if every write succeeded, else `ERROR` with the failed write's error. The writes are recorded in order, and the build completes, a chained build starting iff the flag is set. |
| Orchestrator.EntriesLeaveOnlyByRename | dist/rollup-watch.es6.js:138-151 | An id leaves the watcher map only through a `rename` notification for that id; reconciliation never removes entries. |
| Orchestrator.TimerWhileIdle | dist/rollup-watch.es6.js:112-116 | A timer firing while idle clears the flag and starts exactly one build with one bundler call. |
| Scenarios.TwoRealOneSynthetic | dist/rollup-watch.es6.js:138-151 | A bundle of two real modules and one plugin helper yields exactly two watchers. |
| Scenarios.DuplicateSaveCallsBackOnce | dist/rollup-watch.es6.js:64-71 | A save followed by a duplicate event with the same content calls back once. |
| Scenarios.DeletedFileIsForgotten | dist/rollup-watch.es6.js:60-63 | Deleting a watched file removes its entry and schedules a rebuild, without emitting events or touching the cache. |
| Scenarios.TwoTargetsWrittenInOrder | rollup.config.js:4-11 | With the project's two targets, the CommonJS output is written before the ES output, each with its own `dest` over the shared options. |
| Scenarios.FirstWriteFailureStopsTheChain | dist/rollup-watch.es6.js:163-167 | When the first target's write fails, the chain rejects with that error and the second target is never written. |

## Left out

- `checkVersion`, `exec('npm show …')` and semver `gt` are a child process and a foreign library. The model keeps only the fact that the first `build()` waits for that promise to settle (the `VersionChecked` input). The `OUT_OF_DATE` error is built but never thrown, so nothing is ever logged.
- FileWatcher.React: a `fs.readFileSync` that throws inside the listener (the file removed between the event and the re-read, dist/rollup-watch.es6.js:66) is not modelled. The exception escapes the `fs.watch` listener uncaught, which ends the process rather than any step of this model, so every `Change` notification carries the content the re-read returned.
- Orchestrator.Step: an `'event'` listener that throws while `BUILD_END` or `ERROR` is emitted (dist/rollup-watch.es6.js:173-182) would reject the chain so that line 185 never runs and `building` stays true. Listeners are outside the model, and emission always succeeds.
- `fs.watch`, `fs.readFileSync` and `close()` are filesystem I/O. They appear as inputs: a notification kind, the re-read content, and the error code `fs.watch` throws for a path. `close()` is recorded as an effect.
- Timer delays (50 ms), `process.nextTick` and `Date.now()` are timing concerns. The timer is a pending flag with an explicit firing input, and `BUILD_END` carries no `duration`.
- `EventEmitter` broadcast is modelled as appending to an event trace. Listeners that re-enter the watcher during an `emit` are not modelled.
- `rollup.rollup` and `bundle.write` are treated as opaque results. A bundle is an id plus its module list, and each write's outcome depends only on the options it gets.
- Orchestrator.Build: a `rollup.rollup(opts)` call that throws synchronously (dist/rollup-watch.es6.js:133) is not modelled. Nothing is attached to it yet, so no `ERROR` is emitted, lines 184-186 never run, and `building` stays true, which turns every later timer into a no-op. The model has the bundler always settle, through the `BundlerSettles` input.
- The `BUILD_SELF` event carries the bundle's id, not the bundle object and the `done` resolver. Calling `done` is the `SelfDoneCalled` input.
- The output phase settles as one input. Notifications between two target writes change only the flags, the timer and the watcher map (entries removed on `rename`, snapshots updated on a change), none of which a write reads, so that interleaving is not represented step by step. The per-write ordering is proved for `sequence` itself.
- Objects.AssignIsLastWriterWins: non-enumerable own properties, symbol keys and setters on the target are not modelled; objects are string-keyed maps.
- Orchestrator.ModeOf: a `targets` value that is a string would be iterated character by character by `sequence`. It is not modelled; a truthy `targets` that is not a list counts as an empty list, which is what `sequence` does for values without a `length`. `NaN` is not among the modelled values.

=== FILE: file_watcher.dfy ===
/**
  `FileWatcher`: one filesystem subscription for one file, holding the
  last-known content of the file. Notifications are reduced to two outcomes:
  the file went away (close, dispose, callback) or its content changed
  (callback), with duplicate notifications suppressed by comparing content.
 */
module FileWatcher {
  import opened Wrappers

  /**
    `data` is the content snapshot; `fileExists` is the field the constructor
    sets; `closed` records that `fsWatcher.close()` ran.
   */
  datatype Watcher = Watcher(file: string, data: string, fileExists: bool, closed: bool)

  /**
    A notification from the subscription: `rename`, or any other event
    kind, which makes the watcher re-read the file; `contents` is what that
    read returns.
   */
  datatype Notification = Rename | Change(contents: string)

  /** Side effects of a reaction, in the order they happen. */
  datatype Effect = Close | Dispose | Callback

  datatype Reaction = Reaction(watcher: Watcher, effects: seq<Effect>)

  /** Error code the filesystem reports when the file to watch does not exist. */
  const ENOENT: string := "ENOENT"

  /**
    `new FileWatcher(file, data, ...)`. `watchError` is the code of the error
    `fs.watch` throws, if any: ENOENT yields a watcher with `fileExists`
    false, any other code is rethrown.
   */
  function Create(file: string, data: string, watchError: Option<string>): (r: Result<Watcher, string>)
    ensures r.Success? <==> watchError.None? || watchError == Some(ENOENT)
    ensures r.Success? ==> r.value.file == file && r.value.data == data && !r.value.closed
    ensures r.Success? ==> (r.value.fileExists <==> watchError.None?)
    ensures r.Failure? ==> watchError == Some(r.error)
  {
    match watchError
    case None => Success(Watcher(file, data, true, false))
    case Some(code) =>
      if code == ENOENT then Success(Watcher(file, data, false, false))
      else Failure(code)
  }

  /**
    The subscription's listener. A closed subscription delivers nothing. On
    `rename` the watcher closes, disposes and calls back, in that order. On
    any other event the callback fires exactly when the re-read content
    differs from the snapshot, and the snapshot becomes that content.
   */
  function React(w: Watcher, n: Notification): (r: Reaction)
    ensures w.closed ==> r == Reaction(w, [])
    ensures r.watcher.file == w.file && r.watcher.fileExists == w.fileExists
    ensures !w.closed && n.Rename? ==> r.effects == [Close, Dispose, Callback] && r.watcher.closed
    ensures !w.closed && n.Change? ==>
              && !r.watcher.closed
              && r.watcher.data == n.contents
              && (r.effects == [] <==> n.contents == w.data)
              && (r.effects != [] ==> r.effects == [Callback])
  {
    if w.closed then Reaction(w, [])
    else
      match n
      case Rename => Reaction(w.(closed := true), [Close, Dispose, Callback])
      case Change(contents) =>
        if contents != w.data then Reaction(w.(data := contents), [Callback])
        else Reaction(w, [])
  }

  /** Number of callbacks among some effects. */
  function Callbacks(effects: seq<Effect>): nat {
    if |effects| == 0 then 0
    else (if effects[0] == Callback then 1 else 0) + Callbacks(effects[1..])
  }

  /** Feeds notifications to a watcher one by one, collecting every effect. */
  function ReactAll(w: Watcher, ns: seq<Notification>): Reaction
    decreases |ns|
  {
    if |ns| == 0 then Reaction(w, [])
    else
      var first := React(w, ns[0]);
      var rest := ReactAll(first.watcher, ns[1..]);
      Reaction(rest.watcher, first.effects + rest.effects)
  }

  /** The `change` notifications whose re-reads return `contents`, in order. */
  function Changes(contents: seq<string>): (ns: seq<Notification>)
    ensures |ns| == |contents|
    ensures forall i :: 0 <= i < |ns| ==> ns[i] == Change(contents[i])
  {
    if |contents| == 0 then [] else [Change(contents[0])] + Changes(contents[1..])
  }

  /**
    Number of positions at which the content differs from the content just
    before it, starting from `data`.
   */
  function Transitions(data: string, contents: seq<string>): nat
    decreases |contents|
  {
    if |contents| == 0 then 0
    else (if contents[0] != data then 1 else 0) + Transitions(contents[0], contents[1..])
  }

  lemma {:induction false} CallbacksAppend(a: seq<Effect>, b: seq<Effect>)
    ensures Callbacks(a + b) == Callbacks(a) + Callbacks(b)
    decreases |a|
  {
    if |a| == 0 {
      assert a + b == b;
    } else {
      assert (a + b)[1..] == a[1..] + b;
      CallbacksAppend(a[1..], b);
    }
  }

  /**
    Duplicate suppression over any run of change notifications on an open
    watcher: the callback fires once per actual content transition, no more,
    the watcher stays open, and the snapshot ends as the last content read.
   */
  lemma {:induction false} CallbacksCountTransitions(w: Watcher, contents: seq<string>)
    requires !w.closed
    ensures Callbacks(ReactAll(w, Changes(contents)).effects) == Transitions(w.data, contents)
    ensures !ReactAll(w, Changes(contents)).watcher.closed
    ensures ReactAll(w, Changes(contents)).watcher.data ==
              (if |contents| == 0 then w.data else contents[|contents| - 1])
    decreases |contents|
  {
    if |contents| > 0 {
      var ns := Changes(contents);
      var first := React(w, ns[0]);
      assert ns[1..] == Changes(contents[1..]);
      CallbacksCountTransitions(first.watcher, contents[1..]);
      CallbacksAppend(first.effects, ReactAll(first.watcher, ns[1..]).effects);
      if first.effects == [Callback] {
        assert Callbacks(first.effects) == 1;
      }
    }
  }

  /** Repeating a notification whose content was already seen has no effect at all. */
  lemma DuplicateChangeIsIdempotent(w: Watcher, contents: string)
    ensures var once := React(w, Change(contents));
            React(once.watcher, Change(contents)) == Reaction(once.watcher, [])
  {
  }

  /** After `rename` the watcher is closed and every later notification is ignored. */
  lemma NothingAfterRename(w: Watcher, ns: seq<Notification>)
    requires !w.closed
    ensures var gone := React(w, Rename).watcher;
            ReactAll(gone, ns) == Reaction(gone, [])
  {
    var gone := React(w, Rename).watcher;
    NothingWhenClosed(gone, ns);
  }

  lemma {:induction false} NothingWhenClosed(w: Watcher, ns: seq<Notification>)
    requires w.closed
    ensures ReactAll(w, ns) == Reaction(w, [])
    decreases |ns|
  {
    if |ns| > 0 {
      NothingWhenClosed(w, ns[1..]);
    }
  }
}

=== FILE: lifecycle.dfy ===
/**
  The lifecycle events the watcher emits, and the shape every emitted trace
  has: `STARTING` once and first, then builds, each a `BUILD_START`
  followed by exactly one `BUILD_END` or `ERROR` (a self-building build
  emitting `BUILD_SELF` in between, and then only `BUILD_END`).
 */
module Lifecycle {
  import opened Wrappers

  datatype Event =
    | Starting
    | BuildStart
    | BuildSelf(bundle: nat)
    | BuildEnd(initial: bool)
    | Error(error: string)

  /** Where a trace stands in the pattern. */
  datatype Phase =
    | Fresh         // nothing emitted yet
    | Ready         // no build open
    | InBuild       // BUILD_START emitted, outcome pending
    | AwaitingSelf  // BUILD_SELF emitted, waiting for `done`

  predicate Open(p: Phase) {
    p == InBuild || p == AwaitingSelf
  }

  /** One transition of the pattern; None once the trace has left it. */
  function Next(p: Option<Phase>, e: Event): Option<Phase> {
    match (p, e)
    case (Some(Fresh), Starting) => Some(Ready)
    case (Some(Ready), BuildStart) => Some(InBuild)
    case (Some(InBuild), BuildSelf(_)) => Some(AwaitingSelf)
    case (Some(InBuild), BuildEnd(_)) => Some(Ready)
    case (Some(InBuild), Error(_)) => Some(Ready)
    case (Some(AwaitingSelf), BuildEnd(_)) => Some(Ready)
    case _ => None
  }

  /** Runs the pattern over a whole trace. */
  function Scan(t: seq<Event>): Option<Phase> {
    if |t| == 0 then Some(Fresh) else Next(Scan(t[..|t| - 1]), t[|t| - 1])
  }

  lemma ScanAppend(t: seq<Event>, e: Event)
    ensures Scan(t + [e]) == Next(Scan(t), e)
  {
    assert (t + [e])[..|t|] == t;
  }

  /** Number of builds started in a trace. */
  function Starts(t: seq<Event>): nat {
    if |t| == 0 then 0 else Starts(t[..|t| - 1]) + (if t[|t| - 1] == BuildStart then 1 else 0)
  }

  /** Number of builds finished, successfully or not, in a trace. */
  function Finishes(t: seq<Event>): nat {
    if |t| == 0 then 0
    else Finishes(t[..|t| - 1]) + (if t[|t| - 1].BuildEnd? || t[|t| - 1].Error? then 1 else 0)
  }

  /**
    Any trace that follows the pattern opens `STARTING` exactly once, at its
    head, and has at most one build open: every build but possibly the
    last has finished.
   */
  lemma {:induction false} PatternCounts(t: seq<Event>)
    requires Scan(t).Some?
    ensures Starts(t) == Finishes(t) + (if Open(Scan(t).value) then 1 else 0)
    ensures Scan(t).value == Fresh <==> |t| == 0
    ensures |t| > 0 ==> t[0] == Starting
    ensures forall i :: 0 < i < |t| ==> t[i] != Starting
    decreases |t|
  {
    if |t| > 0 {
      var init := t[..|t| - 1];
      PatternCounts(init);
      if |init| > 0 {
        assert t[0] == init[0];
      }
      forall i | 0 < i < |t|
        ensures t[i] != Starting
      {
        if i < |t| - 1 {
          assert t[i] == init[i];
        }
      }
    }
  }
}

=== FILE: objects.dfy ===
/**
  Plain JavaScript objects, as far as the watcher's option handling looks at
  them: the properties an object owns, and those it only inherits through its
  prototype chain. `assign`, `Object.assign` and `delete` act on own
  properties only; a property read sees both.
 */
module Objects {
  import opened Wrappers

  datatype Obj<V> = Obj(own: map<string, V>, inherited: map<string, V>)

  /** The object literal `{}`. */
  function Empty<V>(): Obj<V> {
    Obj(map[], map[])
  }

  /** Property read `o[key]`: an own property shadows an inherited one. */
  function Get<V>(o: Obj<V>, key: string): Option<V> {
    if key in o.own then Some(o.own[key])
    else if key in o.inherited then Some(o.inherited[key])
    else None
  }

  /**
    `assign(target, ...sources)`: visits the sources left to right and copies
    every key the source owns onto the target, overwriting what is there.
   */
  function Assign<V>(target: Obj<V>, sources: seq<Obj<V>>): (r: Obj<V>)
    ensures r.inherited == target.inherited
    decreases |sources|
  {
    if |sources| == 0 then target
    else Assign(Obj(target.own + sources[0].own, target.inherited), sources[1..])
  }

  /** `delete o[key]`: removes the own property; an inherited one stays visible. */
  function Delete<V>(o: Obj<V>, key: string): (r: Obj<V>)
    ensures key !in r.own
    ensures Get(r, key) == (if key in o.inherited then Some(o.inherited[key]) else None)
    ensures forall k :: k != key ==> Get(r, k) == Get(o, k)
  {
    Obj(o.own - {key}, o.inherited)
  }

  /**
    Reference reading of a merge, scanning from the right: a key's value is
    the one held by the LAST source that owns it, else the target's own one.
   */
  function LastOwnValue<V>(target: Obj<V>, sources: seq<Obj<V>>, key: string): Option<V>
    decreases |sources|
  {
    if |sources| == 0 then
      if key in target.own then Some(target.own[key]) else None
    else
      var last := sources[|sources| - 1];
      if key in last.own then Some(last.own[key])
      else LastOwnValue(target, sources[..|sources| - 1], key)
  }

  /** Some source, or the target, owns `key`. */
  ghost predicate Owned<V>(target: Obj<V>, sources: seq<Obj<V>>, key: string) {
    key in target.own || exists i :: 0 <= i < |sources| && key in sources[i].own
  }

  /** Copying one more source is a right-biased union with what was merged so far. */
  lemma {:induction false} AssignSnoc<V>(target: Obj<V>, sources: seq<Obj<V>>, x: Obj<V>)
    ensures Assign(target, sources + [x]) == Obj(Assign(target, sources).own + x.own, target.inherited)
    decreases |sources|
  {
    if |sources| == 0 {
      assert sources + [x] == [x];
      assert [x][1..] == [];
    } else {
      var next := Obj(target.own + sources[0].own, target.inherited);
      assert (sources + [x])[1..] == sources[1..] + [x];
      AssignSnoc(next, sources[1..], x);
    }
  }

  /** The left-to-right copy loop agrees with the last-writer-wins reading. */
  lemma {:induction false} AssignIsLastWriterWins<V>(target: Obj<V>, sources: seq<Obj<V>>, key: string)
    ensures key in Assign(target, sources).own <==> LastOwnValue(target, sources, key).Some?
    ensures key in Assign(target, sources).own ==>
              Assign(target, sources).own[key] == LastOwnValue(target, sources, key).value
    decreases |sources|
  {
    if |sources| > 0 {
      var init := sources[..|sources| - 1];
      var last := sources[|sources| - 1];
      assert sources == init + [last];
      AssignSnoc(target, init, last);
      AssignIsLastWriterWins(target, init, key);
    }
  }

  /** The last-writer-wins value exists exactly when the target or some source owns the key. */
  lemma {:induction false} LastOwnValueDefined<V>(target: Obj<V>, sources: seq<Obj<V>>, key: string)
    ensures LastOwnValue(target, sources, key).Some? <==> Owned(target, sources, key)
    decreases |sources|
  {
    if |sources| > 0 {
      var init := sources[..|sources| - 1];
      LastOwnValueDefined(target, init, key);
      if key in sources[|sources| - 1].own {
        assert Owned(target, sources, key);
      } else if Owned(target, sources, key) && key !in target.own {
        var i :| 0 <= i < |sources| && key in sources[i].own;
        assert key in init[i].own;
      }
    }
  }

  /**
    Only own properties are copied: the result owns a key exactly when the
    target or one of the sources owns it; a key a source merely inherits is
    never copied.
   */
  lemma AssignCopiesOwnKeysOnly<V>(target: Obj<V>, sources: seq<Obj<V>>, key: string)
    ensures key in Assign(target, sources).own <==> Owned(target, sources, key)
  {
    AssignIsLastWriterWins(target, sources, key);
    LastOwnValueDefined(target, sources, key);
  }

  /** A source's value survives unless a later source owns the same key. */
  lemma {:induction false} AssignLaterOverrides<V>(target: Obj<V>, sources: seq<Obj<V>>, i: nat, key: string)
    requires i < |sources| && key in sources[i].own
    requires forall j :: i < j < |sources| ==> key !in sources[j].own
    ensures key in Assign(target, sources).own
    ensures Assign(target, sources).own[key] == sources[i].own[key]
    decreases |sources|
  {
    AssignIsLastWriterWins(target, sources, key);
    if i < |sources| - 1 {
      var init := sources[..|sources| - 1];
      AssignLaterOverrides(target, init, i, key);
      AssignIsLastWriterWins(target, init, key);
    }
  }

  /**
    `Object.assign({}, base, over)` — also `assign({}, base, over)`: a fresh
    object owning the keys of both, with `over` winning on shared keys.
   */
  function Merge<V>(base: Obj<V>, over: Obj<V>): (r: Obj<V>)
    ensures r.own.Keys == base.own.Keys + over.own.Keys
    ensures r.inherited == map[]
    ensures forall k :: k in over.own ==> r.own[k] == over.own[k]
    ensures forall k :: k in base.own && k !in over.own ==> r.own[k] == base.own[k]
  {
    var first := Obj(map[] + base.own, map[]);
    assert [base, over][1..] == [over];
    assert [over][1..] == [];
    assert Assign(Empty(), [base, over]) == Assign(first, [over]);
    assert Assign(first, [over]) == Obj(first.own + over.own, map[]);
    Assign(Empty(), [base, over])
  }
}

=== FILE: orchestrator.dfy ===
/**
  The rebuild orchestrator inside `watch()`: the `building` /
  `rebuildScheduled` flags, the debounce timer, the bundle cache, the
  watcher map and the emitted events, as one immutable state with a pure
  step per input. Time is abstract: the debounce timer is a pending flag
  that fires on an explicit input, and every asynchronous collaborator (the
  version check, the bundler, the output writes, the self-build consumer,
  the filesystem) settles through an input.
 */
module Orchestrator {
  import opened Wrappers
  import opened Objects
  import opened Lifecycle
  import PromiseChain
  import FileWatcher
  import Registry

  /** What the bundler returns: its module list; the bundle is also the cache for the next build. */
  datatype Bundle = Bundle(id: nat, modules: seq<Registry.Module>)

  /** Option values, as far as the watcher inspects them. */
  datatype Value =
    | Undefined
    | Null
    | Bool(b: bool)
    | Num(n: int)
    | Str(s: string)
    | TargetList(targets: seq<Obj<Value>>)
    | BundleRef(bundle: Bundle)

  /** JavaScript truthiness. */
  predicate Truthy(v: Value) {
    match v
    case Undefined => false
    case Null => false
    case Bool(b) => b
    case Num(n) => n != 0
    case Str(s) => |s| > 0
    case TargetList(_) => true
    case BundleRef(_) => true
  }

  /** Property read `o.key`, `undefined` when absent. */
  function Prop(o: Obj<Value>, key: string): Value {
    match Get(o, key)
    case Some(v) => v
    case None => Undefined
  }

  /** How a successful build produces its output. */
  datatype OutputMode = SelfBuild | Targets(targets: seq<Obj<Value>>) | DefaultWrite

  /**
    `buildSelf` takes precedence over `targets`, which takes precedence over
    the single default write. A truthy `targets` that is not a list has no
    length, so the chain over it is empty.
   */
  function ModeOf(options: Obj<Value>): (m: OutputMode)
    ensures m.SelfBuild? <==> Truthy(Prop(options, "buildSelf"))
    ensures m.Targets? <==> !Truthy(Prop(options, "buildSelf")) && Truthy(Prop(options, "targets"))
    ensures m.Targets? && Prop(options, "targets").TargetList? ==> m.targets == Prop(options, "targets").targets
  {
    if Truthy(Prop(options, "buildSelf")) then SelfBuild
    else if Truthy(Prop(options, "targets")) then
      match Prop(options, "targets")
      case TargetList(ts) => Targets(ts)
      case _ => Targets([])
    else DefaultWrite
  }

  /**
    The options handed to the bundler: `assign({}, options, cache ? {cache}
    : {})` with `buildSelf` deleted. Every other own option is passed
    through; `cache` is the previous bundle when there is one and is
    otherwise whatever `options` itself owns under that key.
   */
  function BuildOptions(options: Obj<Value>, cache: Option<Bundle>): (r: Obj<Value>)
    ensures "buildSelf" !in r.own && r.inherited == map[]
    ensures cache.Some? ==> "cache" in r.own && r.own["cache"] == BundleRef(cache.value)
    ensures cache.None? ==>
              ("cache" in r.own <==> "cache" in options.own) &&
              ("cache" in r.own ==> r.own["cache"] == options.own["cache"])
    ensures forall k :: k != "buildSelf" && k != "cache" ==>
              (k in r.own <==> k in options.own) && (k in r.own ==> r.own[k] == options.own[k])
  {
    var extra: Obj<Value> := if cache.Some? then Obj(map["cache" := BundleRef(cache.value)], map[]) else Empty();
    Delete(Merge(options, extra), "buildSelf")
  }

  /** Calls the orchestrator makes on the bundler and on a bundle. */
  datatype Call = Bundling(options: Obj<Value>) | Write(bundle: nat, options: Obj<Value>)

  /** What the build in flight is waiting for. */
  datatype Awaiting = Nothing | Bundler | SelfDone(bundle: Bundle) | Writes(bundle: Bundle)

  /**
    `started`: the version check has settled and the closure holding the
    other fields exists. `watching` is never assigned after its
    initialisation. `initial` is the in-flight build's `initial`. `settled`
    lists every bundler outcome so far: the bundle, or None for a failure.
   */
  datatype State = State(
    options: Obj<Value>,
    started: bool,
    watchers: map<string, FileWatcher.Watcher>,
    rebuildScheduled: bool,
    building: bool,
    watching: bool,
    timerPending: bool,
    cache: Option<Bundle>,
    initial: bool,
    awaiting: Awaiting,
    settled: seq<Option<Bundle>>,
    events: seq<Event>,
    calls: seq<Call>)

  /** Inputs the environment delivers. */
  datatype Input =
    | VersionChecked
    | TimerFires
    | FsEvent(id: string, notification: FileWatcher.Notification)
    | BundlerSettles(result: Result<Bundle, string>, fsErrors: map<string, string>)
    | SelfDoneCalled
    | WritesSettle(write: Obj<Value> -> Result<(), string>)

  /** `watch(rollup, options)` returns: only `STARTING` is scheduled, on the next tick. */
  function Init(options: Obj<Value>): (r: State)
    ensures Inv(r)
    ensures r.events == [Starting] && r.calls == [] && !r.building && r.watchers == map[] && r.cache.None?
  {
    assert Scan([Starting]) == Next(Scan([]), Starting);
    State(options, false, map[], false, false, false, false, None, false, Nothing, [], [Starting], [])
  }

  /**
    `build()`. A call while a build is in flight does nothing; otherwise it
    emits `BUILD_START`, marks the build in flight and calls the bundler
    with the options carrying the current cache.
   */
  function Build(s: State): (r: State)
    ensures s.building ==> r == s
    ensures !s.building ==>
              && r.building
              && r.events == s.events + [BuildStart]
              && r.calls == s.calls + [Bundling(BuildOptions(s.options, s.cache))]
              && r.initial == !s.watching
              && r.rebuildScheduled == s.rebuildScheduled
    ensures s.events <= r.events && s.calls <= r.calls
    ensures r.options == s.options && r.started == s.started && r.settled == s.settled
  {
    if s.building then s
    else s.(
      initial := !s.watching,
      events := s.events + [BuildStart],
      building := true,
      awaiting := Bundler,
      calls := s.calls + [Bundling(BuildOptions(s.options, s.cache))])
  }

  /** `triggerRebuild()`: replaces the pending timer and schedules a rebuild. */
  function TriggerRebuild(s: State): (r: State)
    ensures r.rebuildScheduled && r.timerPending
    ensures r.building == s.building && r.events == s.events && r.calls == s.calls
  {
    s.(rebuildScheduled := true, timerPending := true)
  }

  /**
    The last continuation of a build: the build is no longer in flight, and
    a new build starts exactly when a rebuild is scheduled. The flag is
    left as it was, so a chained build runs with it still set.
   */
  function Complete(s: State): (r: State)
    requires s.building
    ensures r.building <==> s.rebuildScheduled
    ensures r.rebuildScheduled == s.rebuildScheduled
    ensures r.events == s.events + (if s.rebuildScheduled then [BuildStart] else [])
    ensures r.cache == s.cache && r.watchers == s.watchers
    ensures s.calls <= r.calls
    ensures r.options == s.options && r.started == s.started && r.settled == s.settled
  {
    var idle := s.(building := false, awaiting := Nothing);
    if idle.rebuildScheduled then Build(idle) else idle
  }

  /** The writes made by the output phase, and the error it rejects with, if any. */
  datatype WriteOutcome = WriteOutcome(calls: seq<Call>, failure: Option<string>)

  function Reject(r: Result<(), string>): Option<string> {
    match r
    case Success(_) => None
    case Failure(e) => Some(e)
  }

  /**
    The output phase after a successful bundle, in `targets` or default
    mode. With targets, `sequence` writes them one after another in list
    order, each with the target's keys overriding the base options, and
    stops at the first failed write; otherwise the bundle is written once
    with the options unchanged.
   */
  function Output(options: Obj<Value>, b: Bundle, write: Obj<Value> -> Result<(), string>): (r: WriteOutcome)
    ensures !ModeOf(options).Targets? ==>
              r.calls == [Write(b.id, options)] && r.failure == Reject(write(options))
    ensures ModeOf(options).Targets? ==>
              var ts := ModeOf(options).targets;
              && |r.calls| <= |ts|
              && (forall i :: 0 <= i < |r.calls| ==> r.calls[i] == Write(b.id, Merge(options, ts[i])))
              && (r.failure.None? <==> forall i :: 0 <= i < |ts| ==> write(Merge(options, ts[i])).Success?)
              && (r.failure.None? ==> |r.calls| == |ts|)
              && (r.failure.Some? ==>
                    && |r.calls| > 0
                    && write(Merge(options, ts[|r.calls| - 1])) == Failure(r.failure.value)
                    && forall i :: 0 <= i < |r.calls| - 1 ==> write(Merge(options, ts[i])).Success?)
  {
    match ModeOf(options)
    case Targets(ts) =>
      var chain := PromiseChain.Sequence(ts, t => write(Merge(options, t)));
      var n := |chain.log| / 2;
      WriteOutcome(
        seq(n, i requires 0 <= i < n => Write(b.id, Merge(options, ts[i]))),
        if chain.result.Success? then None else Some(chain.result.error))
    case _ =>
      WriteOutcome([Write(b.id, options)], Reject(write(options)))
  }

  /** Applies a watcher's effects to the orchestrator, in order; a watcher emits nothing and calls nothing. */
  function Effects(s: State, id: string, effects: seq<FileWatcher.Effect>): (r: State)
    ensures r.events == s.events && r.calls == s.calls && r.options == s.options && r.started == s.started
    ensures r.building == s.building && r.cache == s.cache && r.settled == s.settled
    decreases |effects|
  {
    if |effects| == 0 then s
    else
      var next :=
        match effects[0]
        case Close => s
        case Dispose => s.(watchers := Registry.Dispose(s.watchers, id))
        case Callback => TriggerRebuild(s);
      Effects(next, id, effects[1..])
  }

  /** The bundler's promise settled. */
  function AfterBundler(s: State, result: Result<Bundle, string>, fsErrors: map<string, string>): (r: State)
    requires s.building
    ensures s.events <= r.events && s.calls <= r.calls && r.options == s.options && r.started == s.started
    ensures result.Failure? ==>
              && r.cache == s.cache && r.watchers == s.watchers && r.settled == s.settled + [None]
              && |r.events| > |s.events| && r.events[|s.events|] == Error(result.error)
              && (r.building <==> s.rebuildScheduled)
    ensures result.Success? ==>
              && r.cache == Some(result.value) && r.settled == s.settled + [Some(result.value)]
              && r.watchers == Registry.Reconcile(s.watchers, result.value.modules, fsErrors).watchers
    ensures result.Success? && Registry.Reconcile(s.watchers, result.value.modules, fsErrors).fatal.Some? ==>
              && |r.events| > |s.events|
              && r.events[|s.events|] == Error(Registry.Reconcile(s.watchers, result.value.modules, fsErrors).fatal.value)
              && (r.building <==> s.rebuildScheduled)
    ensures result.Success? && Registry.Reconcile(s.watchers, result.value.modules, fsErrors).fatal.None? &&
            !ModeOf(s.options).SelfBuild? ==>
              r.building && r.awaiting == Writes(result.value) && r.events == s.events && r.calls == s.calls
  {
    match result
    case Failure(e) =>
      Complete(s.(settled := s.settled + [None], events := s.events + [Error(e)]))
    case Success(b) =>
      var rec := Registry.Reconcile(s.watchers, b.modules, fsErrors);
      var kept := s.(cache := Some(b), settled := s.settled + [Some(b)], watchers := rec.watchers);
      if rec.fatal.Some? then
        Complete(kept.(events := kept.events + [Error(rec.fatal.value)]))
      else if ModeOf(s.options).SelfBuild? then
        kept.(events := kept.events + [BuildSelf(b.id)], awaiting := SelfDone(b))
      else
        kept.(awaiting := Writes(b))
  }

  /**
    One input. An input the environment cannot deliver in this state (a
    timer that is not pending, a settlement nobody awaits, a notification
    for an unwatched file) changes nothing.
   */
  function Step(s: State, input: Input): (r: State)
    ensures r.options == s.options
    ensures s.started ==> r.started
    ensures s.events <= r.events && s.calls <= r.calls && s.settled <= r.settled
  {
    match input
    case VersionChecked =>
      if s.started then s else Build(s.(started := true))
    case TimerFires =>
      if !s.timerPending then s
      else
        var fired := s.(timerPending := false);
        if !fired.building then Build(fired.(rebuildScheduled := false)) else fired
    case FsEvent(id, n) =>
      if id !in s.watchers then s
      else
        var reaction := FileWatcher.React(s.watchers[id], n);
        Effects(s.(watchers := s.watchers[id := reaction.watcher]), id, reaction.effects)
    case BundlerSettles(result, fsErrors) =>
      if s.awaiting != Bundler || !s.building then s
      else AfterBundler(s, result, fsErrors)
    case SelfDoneCalled =>
      if !s.awaiting.SelfDone? || !s.building then s
      else Complete(s.(events := s.events + [BuildEnd(s.initial)]))
    case WritesSettle(write) =>
      if !s.awaiting.Writes? || !s.building then s
      else
        var out := Output(s.options, s.awaiting.bundle, write);
        var ending := if out.failure.None? then BuildEnd(s.initial) else Error(out.failure.value);
        Complete(s.(calls := s.calls + out.calls, events := s.events + [ending]))
  }

  /** Delivers inputs one after another. */
  function Run(s: State, inputs: seq<Input>): State
    decreases |inputs|
  {
    if |inputs| == 0 then s else Run(Step(s, inputs[0]), inputs[1..])
  }

  // ---------------------------------------------------------------------
  // Invariant of every reachable state
  // ---------------------------------------------------------------------

  /** The bundle of the most recent successful bundler call. */
  function LastBuilt(settled: seq<Option<Bundle>>): Option<Bundle> {
    if |settled| == 0 then None
    else if settled[|settled| - 1].Some? then settled[|settled| - 1]
    else LastBuilt(settled[..|settled| - 1])
  }

  /** Where the event pattern stands, judged from the flags. */
  function PhaseOf(s: State): Phase {
    if !s.building then Ready
    else if s.awaiting.SelfDone? then AwaitingSelf
    else InBuild
  }

  ghost predicate EndsInitial(events: seq<Event>) {
    forall i :: 0 <= i < |events| && events[i].BuildEnd? ==> events[i].initial
  }

  /** An entry of the map: a real file, watched by an open watcher on that file. */
  predicate WatchedEntry(id: string, w: FileWatcher.Watcher) {
    !Registry.Synthetic(id) && w.file == id && w.fileExists && !w.closed
  }

  /** Everything but the link between the flags and the event pattern. */
  ghost predicate Core(s: State) {
    && !s.watching
    && (s.building ==> s.initial && s.started)
    && (!s.started ==> !s.building && !s.timerPending && s.watchers == map[] && s.events == [Starting] && s.calls == [])
    && EndsInitial(s.events)
    && s.cache == LastBuilt(s.settled)
    && (forall id :: id in s.watchers ==> WatchedEntry(id, s.watchers[id]))
  }

  ghost predicate Inv(s: State) {
    && Core(s)
    && (s.building <==> !s.awaiting.Nothing?)
    && Scan(s.events) == Some(PhaseOf(s))
    && (s.awaiting == Bundler ==>
          |s.calls| > 0 && s.calls[|s.calls| - 1] == Bundling(BuildOptions(s.options, s.cache)))
    && ((s.awaiting.SelfDone? || s.awaiting.Writes?) ==> s.cache == Some(s.awaiting.bundle))
  }

  lemma EndsInitialAppend(events: seq<Event>, e: Event)
    requires EndsInitial(events) && (e.BuildEnd? ==> e.initial)
    ensures EndsInitial(events + [e])
  {
    assert forall i :: 0 <= i < |events| ==> (events + [e])[i] == events[i];
  }

  lemma BuildInv(s: State)
    requires Inv(s) && s.started
    ensures Inv(Build(s))
  {
    if !s.building {
      ScanAppend(s.events, BuildStart);
      EndsInitialAppend(s.events, BuildStart);
    }
  }

  /** A build that has just emitted its outcome completes into an invariant state. */
  lemma CompleteInv(s: State)
    requires Core(s) && s.building && Scan(s.events) == Some(Ready)
    ensures Inv(Complete(s))
  {
    var idle := s.(building := false, awaiting := Nothing);
    assert Inv(idle);
    if idle.rebuildScheduled {
      BuildInv(idle);
    }
  }

  lemma LastBuiltAppend(settled: seq<Option<Bundle>>, o: Option<Bundle>)
    ensures LastBuilt(settled + [o]) == (if o.Some? then o else LastBuilt(settled))
  {
    assert (settled + [o])[..|settled|] == settled;
  }

  lemma AfterBundlerInv(s: State, result: Result<Bundle, string>, fsErrors: map<string, string>)
    requires Inv(s) && s.building && s.awaiting == Bundler
    ensures Inv(AfterBundler(s, result, fsErrors))
  {
    match result
    case Failure(e) =>
      var closing := s.(settled := s.settled + [None], events := s.events + [Error(e)]);
      LastBuiltAppend(s.settled, None);
      ScanAppend(s.events, Error(e));
      EndsInitialAppend(s.events, Error(e));
      CompleteInv(closing);
    case Success(b) =>
      var rec := Registry.Reconcile(s.watchers, b.modules, fsErrors);
      LastBuiltAppend(s.settled, Some(b));
      forall id | id in rec.watchers
        ensures WatchedEntry(id, rec.watchers[id])
      {
        if id !in s.watchers {
          Registry.ReconcileAddsOnlyWatchableFiles(s.watchers, b.modules, fsErrors, id);
        }
      }
      var kept := s.(cache := Some(b), settled := s.settled + [Some(b)], watchers := rec.watchers);
      assert Core(kept);
      if rec.fatal.Some? {
        ScanAppend(s.events, Error(rec.fatal.value));
        EndsInitialAppend(s.events, Error(rec.fatal.value));
        CompleteInv(kept.(events := kept.events + [Error(rec.fatal.value)]));
      } else if ModeOf(s.options).SelfBuild? {
        ScanAppend(s.events, BuildSelf(b.id));
        EndsInitialAppend(s.events, BuildSelf(b.id));
      }
  }

  /** The two possible reactions of an open watcher, applied to the orchestrator. */
  lemma FsEventEffect(s: State, id: string, n: FileWatcher.Notification)
    requires Inv(s) && id in s.watchers
    ensures n.Rename? ==>
              Step(s, FsEvent(id, n)) == TriggerRebuild(s.(watchers := s.watchers - {id}))
    ensures n.Change? && n.contents == s.watchers[id].data ==>
              Step(s, FsEvent(id, n)) == s
    ensures n.Change? && n.contents != s.watchers[id].data ==>
              Step(s, FsEvent(id, n)) ==
                TriggerRebuild(s.(watchers := s.watchers[id := s.watchers[id].(data := n.contents)]))
  {
    var w := s.watchers[id];
    var reaction := FileWatcher.React(w, n);
    var updated := s.(watchers := s.watchers[id := reaction.watcher]);
    if n.Rename? {
      var effects := reaction.effects;
      assert effects[1..] == [FileWatcher.Dispose, FileWatcher.Callback];
      assert effects[1..][1..] == [FileWatcher.Callback];
      assert updated.watchers - {id} == s.watchers - {id};
    } else if n.contents == w.data {
      assert s.watchers[id := w] == s.watchers;
    } else {
      assert reaction.effects[1..] == [];
    }
  }

  lemma FsEventInv(s: State, id: string, n: FileWatcher.Notification)
    requires Inv(s) && id in s.watchers
    ensures Inv(Step(s, FsEvent(id, n)))
  {
    FsEventEffect(s, id, n);
    if n.Change? && n.contents != s.watchers[id].data {
      var w := s.watchers[id].(data := n.contents);
      assert WatchedEntry(id, w);
    }
  }

  lemma SelfDoneInv(s: State)
    requires Inv(s) && s.awaiting.SelfDone? && s.building
    ensures Inv(Step(s, SelfDoneCalled))
  {
    ScanAppend(s.events, BuildEnd(s.initial));
    EndsInitialAppend(s.events, BuildEnd(s.initial));
    CompleteInv(s.(events := s.events + [BuildEnd(s.initial)]));
  }

  lemma WritesInv(s: State, write: Obj<Value> -> Result<(), string>)
    requires Inv(s) && s.awaiting.Writes? && s.building
    ensures Inv(Step(s, WritesSettle(write)))
  {
    var out := Output(s.options, s.awaiting.bundle, write);
    var ending := if out.failure.None? then BuildEnd(s.initial) else Error(out.failure.value);
    ScanAppend(s.events, ending);
    EndsInitialAppend(s.events, ending);
    var closing := s.(calls := s.calls + out.calls, events := s.events + [ending]);
    assert Core(closing);
    CompleteInv(closing);
  }

  lemma StepInv(s: State, input: Input)
    requires Inv(s)
    ensures Inv(Step(s, input))
  {
    match input
    case VersionChecked =>
      if !s.started {
        BuildInv(s.(started := true));
      }
    case TimerFires =>
      if s.timerPending && !s.building {
        BuildInv(s.(timerPending := false, rebuildScheduled := false));
      }
    case FsEvent(id, n) =>
      if id in s.watchers {
        FsEventInv(s, id, n);
      }
    case BundlerSettles(result, fsErrors) =>
      if s.awaiting == Bundler && s.building {
        AfterBundlerInv(s, result, fsErrors);
      }
    case SelfDoneCalled =>
      if s.awaiting.SelfDone? && s.building {
        SelfDoneInv(s);
      }
    case WritesSettle(write) =>
      if s.awaiting.Writes? && s.building {
        WritesInv(s, write);
      }
  }

  lemma {:induction false} RunInv(s: State, inputs: seq<Input>)
    requires Inv(s)
    ensures Inv(Run(s, inputs))
    decreases |inputs|
  {
    if |inputs| > 0 {
      StepInv(s, inputs[0]);
      RunInv(Step(s, inputs[0]), inputs[1..]);
    }
  }

  /** Every state the watcher can reach from `watch(rollup, options)`. */
  lemma Reachable(options: Obj<Value>, inputs: seq<Input>)
    ensures Inv(Run(Init(options), inputs))
  {
    RunInv(Init(options), inputs);
  }

  // ---------------------------------------------------------------------
  // Properties of every run
  // ---------------------------------------------------------------------

  /**
    At most one build is in flight: every `BUILD_START` but the latest is
    matched by a `BUILD_END` or `ERROR`, and the latest is unmatched exactly
    while `building` holds. `STARTING` is emitted once, before anything else.
   */
  lemma AtMostOneBuildInFlight(options: Obj<Value>, inputs: seq<Input>)
    ensures var s := Run(Init(options), inputs);
            && Starts(s.events) == Finishes(s.events) + (if s.building then 1 else 0)
            && |s.events| > 0 && s.events[0] == Starting
            && forall i :: 0 < i < |s.events| ==> s.events[i] != Starting
  {
    Reachable(options, inputs);
    PatternCounts(Run(Init(options), inputs).events);
  }

  /** `watching` is never set, so every `BUILD_END` reports `initial: true`. */
  lemma BuildEndAlwaysInitial(options: Obj<Value>, inputs: seq<Input>)
    ensures var s := Run(Init(options), inputs);
            forall i :: 0 <= i < |s.events| && s.events[i].BuildEnd? ==> s.events[i].initial
  {
    Reachable(options, inputs);
  }

  /**
    Cache hand-off: the cache is always the bundle of the most recent
    successful bundler call (failures leave it alone), and a bundler call in
    flight was made with that bundle under the `cache` option.
   */
  lemma BundlerGetsLastGoodBundle(options: Obj<Value>, inputs: seq<Input>)
    ensures var s := Run(Init(options), inputs);
            && s.cache == LastBuilt(s.settled)
            && (s.awaiting == Bundler ==>
                  && |s.calls| > 0
                  && s.calls[|s.calls| - 1].Bundling?
                  && var sent := s.calls[|s.calls| - 1].options;
                     && "buildSelf" !in sent.own
                     && (s.cache.Some? ==> "cache" in sent.own && sent.own["cache"] == BundleRef(s.cache.value)))
  {
    Reachable(options, inputs);
  }

  /**
    The cache becomes the new bundle as soon as the bundler succeeds, before
    any write, and a failing bundler leaves it unchanged.
   */
  lemma CacheAfterBundler(s: State, result: Result<Bundle, string>, fsErrors: map<string, string>)
    requires Inv(s) && s.awaiting == Bundler
    ensures Step(s, BundlerSettles(result, fsErrors)).cache ==
              (if result.Success? then Some(result.value) else s.cache)
  {
  }

  /** A failed write keeps the bundle that was just cached. */
  lemma WriteFailureKeepsCache(s: State, write: Obj<Value> -> Result<(), string>)
    requires Inv(s) && s.awaiting.Writes?
    ensures Step(s, WritesSettle(write)).cache == Some(s.awaiting.bundle)
  {
  }

  // ---------------------------------------------------------------------
  // Scheduling: notifications, the debounce timer and chained builds
  // ---------------------------------------------------------------------

  /**
    Nothing happens before the version check settles: `STARTING` is the
    only event until then, and the first build starts on its settlement.
   */
  lemma NothingBeforeVersionCheck(s: State, input: Input)
    requires Inv(s) && !s.started
    ensures !input.VersionChecked? ==> Step(s, input) == s
    ensures input.VersionChecked? ==>
              Step(s, input).building && Step(s, input).events == [Starting, BuildStart]
  {
  }

  /**
    With `buildSelf`, a successful bundle is handed out in `BUILD_SELF` and
    the build stays in flight, writing nothing, until `done` is called.
   */
  lemma SelfBuildWaitsForDone(s: State, b: Bundle, fsErrors: map<string, string>)
    requires Inv(s) && s.awaiting == Bundler && ModeOf(s.options).SelfBuild?
    requires Registry.Reconcile(s.watchers, b.modules, fsErrors).fatal.None?
    ensures var r := Step(s, BundlerSettles(Success(b), fsErrors));
            && r.building && r.awaiting == SelfDone(b)
            && r.events == s.events + [BuildSelf(b.id)]
            && r.calls == s.calls
  {
  }

  /**
    Calling the `done` a self-build consumer was handed ends the build with
    `BUILD_END`, keeps the cache, and chains a build iff one is scheduled.
   */
  lemma SelfDoneEnds(s: State)
    requires Inv(s) && s.awaiting.SelfDone?
    ensures var r := Step(s, SelfDoneCalled);
            && |r.events| > |s.events| && r.events[|s.events|] == BuildEnd(true)
            && (r.building <==> s.rebuildScheduled)
            && r.cache == s.cache
  {
  }

  /**
    The output phase ends the build with `BUILD_END` when every write
    succeeded and with `ERROR` carrying the failed write's error otherwise.
   */
  lemma WritesDecideOutcome(s: State, write: Obj<Value> -> Result<(), string>)
    requires Inv(s) && s.awaiting.Writes?
    ensures var r := Step(s, WritesSettle(write));
            var out := Output(s.options, s.awaiting.bundle, write);
            && |r.events| > |s.events|
            && r.events[|s.events|] == (if out.failure.None? then BuildEnd(true) else Error(out.failure.value))
            && r.calls[..|s.calls| + |out.calls|] == s.calls + out.calls
            && (r.building <==> s.rebuildScheduled)
  {
    var out := Output(s.options, s.awaiting.bundle, write);
    var ending := if out.failure.None? then BuildEnd(s.initial) else Error(out.failure.value);
    var closing := s.(calls := s.calls + out.calls, events := s.events + [ending]);
    var r := Complete(closing);
    assert r.events[|s.events|] == (s.events + [ending])[|s.events|];
    assert closing.calls[..|s.calls| + |out.calls|] == closing.calls;
  }

  /**
    Entries leave the watcher map only through their own watcher's dispose
    callback, that is, on a `rename` notification for that id.
   */
  lemma EntriesLeaveOnlyByRename(s: State, input: Input, id: string)
    requires Inv(s) && id in s.watchers && id !in Step(s, input).watchers
    ensures input == FsEvent(id, FileWatcher.Rename)
  {
    match input
    case FsEvent(other, n) =>
      FsEventEffect(s, other, n);
    case _ =>
  }

  /** A timer firing while idle clears the flag and starts exactly one build. */
  lemma TimerWhileIdle(s: State)
    requires Inv(s) && !s.building && s.timerPending
    ensures var r := Step(s, TimerFires);
            && r.building && !r.rebuildScheduled && !r.timerPending
            && r.events == s.events + [BuildStart]
            && r.calls == s.calls + [Bundling(BuildOptions(s.options, s.cache))]
  {
  }

  /** `n` consecutive calls of `triggerRebuild`. */
  function Triggers(s: State, n: nat): State {
    if n == 0 then s else TriggerRebuild(Triggers(s, n - 1))
  }

  lemma {:induction false} TriggersOnlySetFlags(s: State, n: nat)
    requires n > 0
    ensures Triggers(s, n) == s.(rebuildScheduled := true, timerPending := true)
  {
    if n > 1 {
      TriggersOnlySetFlags(s, n - 1);
    }
  }

  /**
    A burst of notifications while idle coalesces into exactly one build:
    when the single surviving timer fires, the flag is cleared, one
    `BUILD_START` is emitted and the bundler is called once, with the cache.
   */
  lemma BurstWhileIdleBuildsOnce(s: State, n: nat)
    requires Inv(s) && s.started && !s.building && n > 0
    ensures var r := Step(Triggers(s, n), TimerFires);
            && r.building && !r.rebuildScheduled && !r.timerPending
            && r.events == s.events + [BuildStart]
            && r.calls == s.calls + [Bundling(BuildOptions(s.options, s.cache))]
  {
    TriggersOnlySetFlags(s, n);
  }

  /** A timer that fires during a build changes nothing but consume itself; the flag stays set. */
  lemma TimerDuringBuild(s: State)
    requires Inv(s) && s.building && s.timerPending
    ensures Step(s, TimerFires) == s.(timerPending := false)
  {
  }

  /**
    A build in flight with a rebuild scheduled never leaves that condition:
    the completion handler chains a build without clearing the flag, and
    the only step that clears it, a timer firing while idle, can no longer
    happen because the orchestrator is never idle again.
   */
  lemma ChainedStep(s: State, input: Input)
    requires Inv(s) && s.building && s.rebuildScheduled
    ensures Step(s, input).building && Step(s, input).rebuildScheduled
  {
    if input.FsEvent? && input.id in s.watchers {
      FsEventEffect(s, input.id, input.notification);
    }
  }

  /**
    Once a `rename`, or a change with new content, arrives while a build is
    in flight, the orchestrator rebuilds forever: whatever inputs follow, a build is in
    flight with a rebuild scheduled.
   */
  lemma {:induction false} RebuildsNeverStop(s: State, inputs: seq<Input>)
    requires Inv(s) && s.building && s.rebuildScheduled
    ensures Run(s, inputs).building && Run(s, inputs).rebuildScheduled
    decreases |inputs|
  {
    if |inputs| > 0 {
      ChainedStep(s, inputs[0]);
      StepInv(s, inputs[0]);
      RebuildsNeverStop(Step(s, inputs[0]), inputs[1..]);
    }
  }

  /** A notification that arrives mid-build enters that condition. */
  lemma NotifyDuringBuild(s: State, id: string, contents: string)
    requires Inv(s) && s.building && id in s.watchers && contents != s.watchers[id].data
    ensures var r := Step(s, FsEvent(id, FileWatcher.Change(contents)));
            r.building && r.rebuildScheduled && r.timerPending
  {
    FsEventEffect(s, id, FileWatcher.Change(contents));
  }
}

=== FILE: promise_chain.dfy ===
/**
  `sequence(array, fn)`: a promise chain that applies `fn` to the elements
  one after another, each call starting only once the previous call's
  promise has settled, and collects the fulfilled values by index. A
  rejection skips every later link of the chain.

  `fn` is given as the outcome its promise settles to; the schedule of calls
  and settlements is recorded in a log.
 */
module PromiseChain {
  import opened Wrappers

  /** One event of the chain's schedule: `fn` called on element `index`, or its promise settled. */
  datatype Step = Called(index: nat) | Settled(index: nat, fulfilled: bool)

  /** What the chain did, and the promise `sequence` returns. */
  datatype Chain<U, E> = Chain(log: seq<Step>, result: Result<seq<U>, E>)

  /**
    The chain from link `i` onwards, `results` holding the values of links
    `0 .. i-1`.
   */
  function RunFrom<T, U, E>(elems: seq<T>, fn: T -> Result<U, E>, i: nat, results: seq<U>): (r: Chain<U, E>)
    requires i <= |elems| && |results| == i
    ensures |r.log| % 2 == 0 && |r.log| <= 2 * (|elems| - i)
    ensures forall p :: 0 <= p < |r.log| ==>
              r.log[p].index == i + p / 2 && (r.log[p].Called? <==> p % 2 == 0)
    ensures forall p :: 0 <= p < |r.log| && r.log[p].Settled? ==>
              r.log[p].fulfilled == fn(elems[i + p / 2]).Success?
    ensures r.result.Success? <==> forall j :: i <= j < |elems| ==> fn(elems[j]).Success?
    ensures r.result.Success? ==>
              && |r.log| == 2 * (|elems| - i)
              && |r.result.value| == |elems|
              && r.result.value[..i] == results
              && forall j :: i <= j < |elems| ==> fn(elems[j]) == Success(r.result.value[j])
    ensures r.result.Failure? ==>
              && |r.log| >= 2
              && fn(elems[i + |r.log| / 2 - 1]) == Failure(r.result.error)
              && forall j :: i <= j < i + |r.log| / 2 - 1 ==> fn(elems[j]).Success?
    decreases |elems| - i
  {
    if i == |elems| then Chain([], Success(results))
    else
      match fn(elems[i])
      case Failure(e) => Chain([Called(i), Settled(i, false)], Failure(e))
      case Success(v) =>
        var rest := RunFrom(elems, fn, i + 1, results + [v]);
        Chain([Called(i), Settled(i, true)] + rest.log, rest.result)
  }

  /**
    `sequence(array, fn)`. The log alternates strictly: call 0, settle 0,
    call 1, settle 1, ... On success every element was processed and
    `results[i]` is element `i`'s value; on a rejection at link `k` the chain
    rejects with that error, every earlier link was fulfilled, and `fn` was
    never called on an element after `k`.
   */
  function Sequence<T, U, E>(elems: seq<T>, fn: T -> Result<U, E>): (r: Chain<U, E>)
    ensures |r.log| % 2 == 0 && |r.log| <= 2 * |elems|
    ensures forall p :: 0 <= p < |r.log| ==>
              r.log[p].index == p / 2 && (r.log[p].Called? <==> p % 2 == 0)
    ensures forall p :: 0 <= p < |r.log| && r.log[p].Settled? ==>
              r.log[p].fulfilled == fn(elems[p / 2]).Success?
    ensures r.result.Success? <==> forall j :: 0 <= j < |elems| ==> fn(elems[j]).Success?
    ensures r.result.Success? ==>
              && |r.log| == 2 * |elems|
              && |r.result.value| == |elems|
              && forall j :: 0 <= j < |elems| ==> fn(elems[j]) == Success(r.result.value[j])
    ensures r.result.Failure? ==>
              && |r.log| >= 2
              && fn(elems[|r.log| / 2 - 1]) == Failure(r.result.error)
              && forall j :: 0 <= j < |r.log| / 2 - 1 ==> fn(elems[j]).Success?
  {
    RunFrom(elems, fn, 0, [])
  }

  /**
    Settlement order: whenever `fn` is called on element `j`, the call on
    every earlier element has already both started and settled.
   */
  lemma SettledBeforeNextCall<T, U, E>(elems: seq<T>, fn: T -> Result<U, E>, p: nat, q: nat)
    requires q < |Sequence(elems, fn).log| && Sequence(elems, fn).log[q].Called?
    requires p < |Sequence(elems, fn).log| && Sequence(elems, fn).log[p].index < Sequence(elems, fn).log[q].index
    ensures p < q
  {
  }
}

=== FILE: registry.dfy ===
/**
  The `filewatchers` map: module id to its FileWatcher. After each
  successful bundle it is reconciled against the bundle's module list;
  entries leave it only through their own watcher's dispose callback.
 */
module Registry {
  import opened Wrappers
  import FileWatcher

  /** A module of a bundle: its id (a file path, or a plugin's virtual id) and its source text. */
  datatype Module = Module(id: string, originalCode: string)

  /** The map after reconciliation, and the error that aborted it, if any. */
  datatype Reconciled = Reconciled(watchers: map<string, FileWatcher.Watcher>, fatal: Option<string>)

  /** Plugin helper modules carry a NUL character in their id and are never watched. */
  predicate Synthetic(id: string) {
    '\0' in id
  }

  /** The error `fs.watch` throws for `id`, given the codes of the files that fail. */
  function WatchError(fsErrors: map<string, string>, id: string): Option<string> {
    if id in fsErrors then Some(fsErrors[id]) else None
  }

  /** Creating a watcher for `id` would throw an error other than ENOENT. */
  predicate FatalAt(reg: map<string, FileWatcher.Watcher>, fsErrors: map<string, string>, id: string) {
    && !Synthetic(id)
    && id !in reg
    && id in fsErrors
    && fsErrors[id] != FileWatcher.ENOENT
  }

  /**
    `bundle.modules.forEach(...)` over the map. Existing entries are kept
    untouched whether or not their id is still in the list; a new entry is
    made for a real file not yet in the map whose watcher reports
    `fileExists`; an error other than ENOENT stops the walk and is
    reported, the entries made before it staying in the map.
   */
  function Reconcile(reg: map<string, FileWatcher.Watcher>, modules: seq<Module>, fsErrors: map<string, string>): (r: Reconciled)
    ensures forall id :: id in reg ==> id in r.watchers && r.watchers[id] == reg[id]
    decreases |modules|
  {
    if |modules| == 0 then Reconciled(reg, None)
    else
      var m := modules[0];
      if Synthetic(m.id) || m.id in reg then
        Reconcile(reg, modules[1..], fsErrors)
      else
        match FileWatcher.Create(m.id, m.originalCode, WatchError(fsErrors, m.id))
        case Failure(e) => Reconciled(reg, Some(e))
        case Success(w) =>
          Reconcile(if w.fileExists then reg[m.id := w] else reg, modules[1..], fsErrors)
  }

  /** The map `Reconcile` continues with after the first module, when it continues. */
  function AfterFirst(reg: map<string, FileWatcher.Watcher>, m: Module, fsErrors: map<string, string>): map<string, FileWatcher.Watcher> {
    if Synthetic(m.id) || m.id in reg || m.id in fsErrors then reg
    else reg[m.id := FileWatcher.Watcher(m.id, m.originalCode, true, false)]
  }

  /** Unfolds one step of `Reconcile` when the first module does not abort it. */
  lemma ReconcileStep(reg: map<string, FileWatcher.Watcher>, modules: seq<Module>, fsErrors: map<string, string>)
    requires |modules| > 0 && !FatalAt(reg, fsErrors, modules[0].id)
    ensures Reconcile(reg, modules, fsErrors) == Reconcile(AfterFirst(reg, modules[0], fsErrors), modules[1..], fsErrors)
  {
  }

  /** Stepping past a non-fatal module changes no other module's fatality. */
  lemma FatalAtAfterFirst(reg: map<string, FileWatcher.Watcher>, m: Module, fsErrors: map<string, string>, id: string)
    requires !FatalAt(reg, fsErrors, m.id)
    ensures FatalAt(AfterFirst(reg, m, fsErrors), fsErrors, id) <==> FatalAt(reg, fsErrors, id)
  {
  }

  /**
    Every entry reconciliation adds is for a real file of the module list
    that could be watched, and holds a fresh open watcher on that file
    whose snapshot is that module's source text.
   */
  lemma {:induction false} ReconcileAddsOnlyWatchableFiles(reg: map<string, FileWatcher.Watcher>, modules: seq<Module>, fsErrors: map<string, string>, id: string)
    requires id in Reconcile(reg, modules, fsErrors).watchers && id !in reg
    ensures !Synthetic(id) && id !in fsErrors
    ensures exists i :: 0 <= i < |modules| && modules[i].id == id &&
              Reconcile(reg, modules, fsErrors).watchers[id] == FileWatcher.Watcher(id, modules[i].originalCode, true, false)
    decreases |modules|
  {
    var m := modules[0];
    if FatalAt(reg, fsErrors, m.id) {
      assert false;
    } else {
      ReconcileStep(reg, modules, fsErrors);
      var next := AfterFirst(reg, m, fsErrors);
      var r := Reconcile(reg, modules, fsErrors);
      if id in next {
        assert id == m.id && r.watchers[id] == next[id];
      } else {
        ReconcileAddsOnlyWatchableFiles(next, modules[1..], fsErrors, id);
        var i :| 0 <= i < |modules[1..]| && modules[1..][i].id == id &&
                 r.watchers[id] == FileWatcher.Watcher(id, modules[1..][i].originalCode, true, false);
        assert modules[i + 1] == modules[1..][i];
      }
    }
  }

  /** A plugin helper not yet in the map is still not in it after reconciliation. */
  lemma SyntheticNeverWatched(reg: map<string, FileWatcher.Watcher>, modules: seq<Module>, fsErrors: map<string, string>, id: string)
    requires Synthetic(id) && id !in reg
    ensures id !in Reconcile(reg, modules, fsErrors).watchers
  {
    if id in Reconcile(reg, modules, fsErrors).watchers {
      ReconcileAddsOnlyWatchableFiles(reg, modules, fsErrors, id);
    }
  }

  /**
    Reconciliation aborts exactly when some module is a real file, not yet
    watched, whose watch attempt fails with an error other than ENOENT.
   */
  lemma {:induction false} ReconcileFatalIff(reg: map<string, FileWatcher.Watcher>, modules: seq<Module>, fsErrors: map<string, string>)
    ensures Reconcile(reg, modules, fsErrors).fatal.None? <==>
              forall i :: 0 <= i < |modules| ==> !FatalAt(reg, fsErrors, modules[i].id)
    decreases |modules|
  {
    if |modules| > 0 && !FatalAt(reg, fsErrors, modules[0].id) {
      var next := AfterFirst(reg, modules[0], fsErrors);
      ReconcileStep(reg, modules, fsErrors);
      ReconcileFatalIff(next, modules[1..], fsErrors);
      forall i | 0 < i < |modules|
        ensures FatalAt(next, fsErrors, modules[i].id) <==> FatalAt(reg, fsErrors, modules[i].id)
      {
        FatalAtAfterFirst(reg, modules[0], fsErrors, modules[i].id);
      }
      assert forall i :: 0 <= i < |modules[1..]| ==> modules[1..][i] == modules[i + 1];
    }
  }

  /**
    The error reported is that of the FIRST module whose watch attempt is
    fatal: `forEach` stops there.
   */
  lemma {:induction false} ReconcileReportsFirstFatal(reg: map<string, FileWatcher.Watcher>, modules: seq<Module>, fsErrors: map<string, string>)
    requires Reconcile(reg, modules, fsErrors).fatal.Some?
    ensures exists k :: 0 <= k < |modules| && FatalAt(reg, fsErrors, modules[k].id) &&
              Reconcile(reg, modules, fsErrors).fatal.value == fsErrors[modules[k].id] &&
              forall i :: 0 <= i < k ==> !FatalAt(reg, fsErrors, modules[i].id)
    decreases |modules|
  {
    var m := modules[0];
    if FatalAt(reg, fsErrors, m.id) {
      assert Reconcile(reg, modules, fsErrors).fatal.value == fsErrors[modules[0].id];
    } else {
      var next := AfterFirst(reg, m, fsErrors);
      ReconcileStep(reg, modules, fsErrors);
      ReconcileReportsFirstFatal(next, modules[1..], fsErrors);
      var k :| 0 <= k < |modules[1..]| && FatalAt(next, fsErrors, modules[1..][k].id) &&
               Reconcile(next, modules[1..], fsErrors).fatal.value == fsErrors[modules[1..][k].id] &&
               forall i :: 0 <= i < k ==> !FatalAt(next, fsErrors, modules[1..][i].id);
      FatalAtAfterFirst(reg, m, fsErrors, modules[k + 1].id);
      forall i | 0 <= i < k + 1
        ensures !FatalAt(reg, fsErrors, modules[i].id)
      {
        if i > 0 {
          assert modules[i] == modules[1..][i - 1];
          FatalAtAfterFirst(reg, m, fsErrors, modules[i].id);
        }
      }
      assert modules[k + 1] == modules[1..][k];
    }
  }

  /**
    A reconciliation that did not abort leaves every real, existing file of
    the module list watched: the ids it cannot watch are exactly the
    synthetic ones and the files that did not exist.
   */
  lemma {:induction false} ReconcileWatchesEveryRealFile(reg: map<string, FileWatcher.Watcher>, modules: seq<Module>, fsErrors: map<string, string>)
    requires Reconcile(reg, modules, fsErrors).fatal.None?
    ensures forall i :: 0 <= i < |modules| && !Synthetic(modules[i].id) && modules[i].id !in fsErrors ==>
              modules[i].id in Reconcile(reg, modules, fsErrors).watchers
    decreases |modules|
  {
    if |modules| > 0 {
      var m := modules[0];
      var r := Reconcile(reg, modules, fsErrors);
      ReconcileFatalIff(reg, modules, fsErrors);
      var next := AfterFirst(reg, m, fsErrors);
      ReconcileStep(reg, modules, fsErrors);
      ReconcileWatchesEveryRealFile(next, modules[1..], fsErrors);
      forall i | 0 <= i < |modules| && !Synthetic(modules[i].id) && modules[i].id !in fsErrors
        ensures modules[i].id in r.watchers
      {
        if i == 0 {
          assert m.id in next;
        } else {
          assert modules[i] == modules[1..][i - 1];
        }
      }
    }
  }

  /**
    A reconciliation that aborts keeps what it did before the abort: every
    real, existing file listed before the first fatal module is in the map.
   */
  lemma {:induction false} ReconcileWatchesFilesBeforeFatal(reg: map<string, FileWatcher.Watcher>, modules: seq<Module>, fsErrors: map<string, string>)
    ensures forall i :: 0 <= i < |modules| && !Synthetic(modules[i].id) && modules[i].id !in fsErrors &&
                        (forall j :: 0 <= j < i ==> !FatalAt(reg, fsErrors, modules[j].id)) ==>
              modules[i].id in Reconcile(reg, modules, fsErrors).watchers
    decreases |modules|
  {
    if |modules| > 0 && !FatalAt(reg, fsErrors, modules[0].id) {
      var m := modules[0];
      var r := Reconcile(reg, modules, fsErrors);
      var next := AfterFirst(reg, m, fsErrors);
      ReconcileStep(reg, modules, fsErrors);
      ReconcileWatchesFilesBeforeFatal(next, modules[1..], fsErrors);
      forall i | 0 <= i < |modules| && !Synthetic(modules[i].id) && modules[i].id !in fsErrors &&
                 (forall j :: 0 <= j < i ==> !FatalAt(reg, fsErrors, modules[j].id))
        ensures modules[i].id in r.watchers
      {
        if i == 0 {
          assert m.id in next;
        } else {
          assert modules[i] == modules[1..][i - 1];
          forall j | 0 <= j < i - 1
            ensures !FatalAt(next, fsErrors, modules[1..][j].id)
          {
            assert modules[1..][j] == modules[j + 1];
            FatalAtAfterFirst(reg, m, fsErrors, modules[j + 1].id);
          }
        }
      }
    }
  }

  /** The dispose callback `filewatchers.delete(id)`: only `id`'s entry goes. */
  function Dispose(reg: map<string, FileWatcher.Watcher>, id: string): (r: map<string, FileWatcher.Watcher>)
    ensures id !in r
    ensures forall other :: other != id ==> (other in r <==> other in reg)
    ensures forall other :: other in r ==> r[other] == reg[other]
  {
    reg - {id}
  }
}

=== FILE: scenarios.dfy ===
/**
  Concrete runs of the model: a first bundle with a plugin helper, a
  duplicate save, a deleted file, and the repository's own two-target
  configuration.
 */
module Scenarios {
  import opened Wrappers
  import opened Objects
  import opened Orchestrator
  import FileWatcher
  import Registry

  /**
    A first bundle with two real modules and one plugin helper: exactly the
    two real files get watchers.
   */
  lemma TwoRealOneSynthetic()
    ensures var modules := [Registry.Module("src/a.js", "a"), Registry.Module("\0helper", "h"), Registry.Module("src/b.js", "b")];
            var r := Registry.Reconcile(map[], modules, map[]);
            r.fatal.None? && r.watchers.Keys == {"src/a.js", "src/b.js"}
  {
    var modules := [Registry.Module("src/a.js", "a"), Registry.Module("\0helper", "h"), Registry.Module("src/b.js", "b")];
    var r := Registry.Reconcile(map[], modules, map[]);
    Registry.ReconcileFatalIff(map[], modules, map[]);
    Registry.ReconcileWatchesEveryRealFile(map[], modules, map[]);
    assert Registry.Synthetic("\0helper") by {
      assert "\0helper"[0] == '\0';
    }
    forall id | id in r.watchers
      ensures id == "src/a.js" || id == "src/b.js"
    {
      Registry.ReconcileAddsOnlyWatchableFiles(map[], modules, map[], id);
    }
  }

  /** A save followed by a duplicate notification with the same content calls back once. */
  lemma DuplicateSaveCallsBackOnce(w: FileWatcher.Watcher)
    requires !w.closed && w.data != "v2"
    ensures FileWatcher.Callbacks(FileWatcher.ReactAll(w, FileWatcher.Changes(["v2", "v2"])).effects) == 1
  {
    FileWatcher.CallbacksCountTransitions(w, ["v2", "v2"]);
    assert ["v2", "v2"][1..] == ["v2"];
    assert ["v2"][1..] == [];
  }

  /**
    Deleting a watched file: its entry leaves the map and a rebuild is
    scheduled behind a fresh timer.
   */
  lemma DeletedFileIsForgotten(s: State, id: string)
    requires Inv(s) && id in s.watchers
    ensures var r := Step(s, FsEvent(id, FileWatcher.Rename));
            id !in r.watchers && r.rebuildScheduled && r.timerPending &&
            r.events == s.events && r.cache == s.cache
  {
    FsEventEffect(s, id, FileWatcher.Rename);
  }

  function CjsTarget(): Obj<Value> {
    Obj(map["dest" := Str("dist/rollup-watch.cjs.js"), "format" := Str("cjs")], map[])
  }

  function EsTarget(): Obj<Value> {
    Obj(map["dest" := Str("dist/rollup-watch.es6.js"), "format" := Str("es6")], map[])
  }

  /** The repository's own configuration: one entry, two targets. */
  function ProjectOptions(): Obj<Value> {
    Obj(map["entry" := Str("src/index.js"), "targets" := TargetList([CjsTarget(), EsTarget()])], map[])
  }

  /**
    With both writes succeeding, the CommonJS target is written before the
    ES target, each with its own destination over the shared options.
   */
  lemma TwoTargetsWrittenInOrder(b: Bundle)
    ensures var out := Output(ProjectOptions(), b, (o: Obj<Value>) => Success(()));
            && out.failure.None?
            && |out.calls| == 2
            && out.calls[0].options.own["dest"] == Str("dist/rollup-watch.cjs.js")
            && out.calls[1].options.own["dest"] == Str("dist/rollup-watch.es6.js")
            && out.calls[1].options.own["entry"] == Str("src/index.js")
  {
    assert Prop(ProjectOptions(), "targets") == TargetList([CjsTarget(), EsTarget()]);
    assert Prop(ProjectOptions(), "buildSelf") == Undefined;
  }

  /** When the first target's write fails, the second target is never written. */
  lemma FirstWriteFailureStopsTheChain(b: Bundle)
    ensures var out := Output(ProjectOptions(), b,
                              (o: Obj<Value>) => if Get(o, "format") == Some(Str("cjs")) then Failure("disk full") else Success(()));
            out.failure == Some("disk full") && |out.calls| == 1
  {
    assert Prop(ProjectOptions(), "targets") == TargetList([CjsTarget(), EsTarget()]);
    assert Prop(ProjectOptions(), "buildSelf") == Undefined;
    assert Merge(ProjectOptions(), CjsTarget()).own["format"] == Str("cjs");
  }
}

=== FILE: wrappers.dfy ===
/** Failure-carrying values shared by every module of the model. */
module Wrappers {

  /** A value that may be absent (JavaScript's `undefined`). */
  datatype Option<+T> = None | Some(value: T)

  /** The outcome of a promise: fulfilled with a value, or rejected with an error. */
  datatype Result<+T, +E> = Success(value: T) | Failure(error: E)
}
